=== FILE: README.md ===
# tinyproxy HTML error pages, modelled in Dafny

This project models the HTML error-page engine of tinyproxy (`src/htmlerror.c`)
and proves properties of the model. The engine records an HTTP error on a
connection, fills in the per-connection substitution variables, looks up the
template registered for the status code, and streams the response to the
client. The response is either the template with `{name}` placeholders
replaced, or a fixed inline fallback page when the template cannot be opened.

Modules, one per file:

- `Wrappers`: `Option`, `Override` (the first present value wins), and
  `LastBound` (the value the last pair for a key gives it).
- `Hashmap`: the container contract the code relies on, and an allocation
  oracle (`Allocator`). The oracle decides which `hashmap_create`,
  `hashmap_insert` and `safestrdup` calls fail, so every `-1` path of the C
  code can be reached.
- `Numerals`: the decimal text that `snprintf("%u")` and `printf("%d")`
  produce, with its inverse.
- `ErrorPages`: the registry that maps a status code to a template path,
  with the fallback path `errorpage_undef`:
  - `add_new_errorpage` as written, and a corrected version (see Findings);
  - `get_html_file`.
- `Variables`: the per-connection variable store:
  - `lookup_variable` and `add_error_variable`;
  - the insertion chains of `indicate_http_error` and `ADD_VAR_RET`.
- `Sink`: the client connection. Every `write_message` call is one write,
  and a sequence of outcomes decides which writes fail. A failed write
  delivers nothing.
- `Renderer`: the substitution automaton `send_html_file`:
  - a pure reference definition (`Step`, `Scan`, `LineWrites`,
    `TemplateWrites`);
  - a streaming implementation that follows the C loop and `switch`
    (`SwitchChar`, `SendChunk`, `SendHtmlFile`) and is proved equal to it.
- `Responder`:
  - `add_standard_vars` and `indicate_http_error`;
  - the header block and fallback page;
  - `send_http_error_message`.
- `Scenarios`: whole responses for concrete situations, such as error 404
  rendered through the template `Error {cause} at {date}`.

Modelling choices:

- A template is the sequence of chunks that `fgets` returns. Each chunk keeps
  its line terminator.
- The scan of a chunk stops at the chunk's first NUL character, as the C loop
  test `*p` does.
- The scanner starts every chunk in the literal state.
- A `char` is one C `char`, that is one byte. Chunks, names, values and
  messages are byte strings, and each `char` of a chunk is one `%c` write. A
  C string holds no NUL before its terminator.
- A `None` string is a NULL pointer.
- Status codes and error numbers passed as `unsigned int` are the subset type
  `uint32`.

## Behaviour of the code worth noting

- A `{` read while a variable is open closes the variable, and one `{` is
  written. The comment at src/htmlerror.c:130-135 presents this as the `{{`
  escape. The same branch handles `{abc{`: the name read so far is dropped
  and one `{` is written (`Renderer.OpenBraceInsideName`).
- `add_standard_vars` skips a variable whose source pointer is NULL. It still
  adds a variable whose source is an empty string.
- `send_http_error_message` ignores the result of the header write. A failed
  header write does not stop the body.
- `indicate_http_error` does not fail when the copy of the message cannot be
  allocated. `error_string` is then NULL and `cause` is not set.
- The fallback page contains the status message twice (in the title and in
  the `<center>` block), along with `PACKAGE`, `VERSION`, `errno` and
  `strerror(errno)`.

## Model

| member | source | states |
|---|---|---|
| ErrorPages.ErrorKey | src/htmlerror.c:37-43 | the map key of an error number is its whole decimal text when that fits in the 8-byte key buffer, and otherwise its first 7 digits, as the truncating `snprintf` writes them |
| ErrorPages.ValidCodeKey | src/htmlerror.c:62-66 | for a code in [100, 1000) the key is the whole decimal text: the buffer never truncates a valid code |
| ErrorPages.ErrorKeyInjective | src/htmlerror.c:62-68 | two valid codes share a key exactly when they are equal, so a lookup never finds another code's page |
| ErrorPages.KeyDistinct | src/htmlerror.c:37-68 | a code in the range the lookup accepts shares its key with no other unsigned number, in range or not, so a registration of an out-of-range number never hides or replaces a valid code's page |
| ErrorPages.KeyDropsLastDigit | src/htmlerror.c:37-43 | an eight-digit number loses its last digit to the 8-byte key buffer, so every number that differs from it only in that digit has the same key |
| Numerals.DecimalRoundTrip | src/htmlerror.c:43 | reading back the `%u` text of a number gives the number |
| Numerals.DecimalInjective | src/htmlerror.c:66 | different numbers have different decimal texts |
| ErrorPages.AddNewErrorpage | src/htmlerror.c:35-50 | as written: on success the registry is exactly the new code's key bound to the path, and whatever was registered before is gone; on failure it is NULL or empty; the result is 0 or -1 |
| ErrorPages.AsWrittenKeepsOnlyLatest | src/htmlerror.c:35-47 | after a successful registration as written of any unsigned number, in range or not, the registered code resolves to its path and every other valid code resolves to `errorpage_undef` |
| ErrorPages.RegistrationLoss | src/htmlerror.c:39 | as written, after registering two different codes, the first code resolves to `errorpage_undef` and the second to its path |
| ErrorPages.AddErrorpage | src/htmlerror.c:35-50 | corrected registration: an existing registry is kept; on success the keys are the old keys plus the new one; on failure every lookup is unchanged |
| ErrorPages.CumulativeRegistration | src/htmlerror.c:35-77 | with the corrected registration, a successful registration of any unsigned number binds its code and every other valid code resolves as before |
| ErrorPages.GetHtmlFile | src/htmlerror.c:55-78 | requires 100 <= code < 1000; the result is the path registered under the code's decimal text when there is one, and `errorpage_undef` when the registry is NULL or has no entry for the code |
| ErrorPages.LoadResolves | src/htmlerror.c:35-78 | after loading (number, path) pairs, whatever numbers they carry, every valid code resolves to the path registered last for it, or as before when none was |
| Variables.LookupVariable | src/htmlerror.c:83-99 | a lookup finds a value exactly when the store exists and binds the name; the value is the bound one; a miss is an explicit `None` |
| Variables.AddErrorVariable | src/htmlerror.c:210-222 | returns 0 or -1; an existing store is never replaced and never loses keys; on success `key` looks up to `val` and every other name is unchanged; on failure every lookup is unchanged |
| Variables.InsertAll | src/htmlerror.c:258-264 | inserting caller pairs in order: on success each name holds the value of its last pair, and names without a pair keep their earlier value |
| Variables.AddPresent | src/htmlerror.c:224-244 | an `ADD_VAR_RET` chain: NULL sources are skipped; on success each name holds its last non-NULL source, and other names are unchanged |
| Variables.LastWriteWins | src/htmlerror.c:217-218 | setting the same name twice: a later lookup returns the second value |
| Sink.DeliverSpec | src/htmlerror.c:120-152 | a run of writes stops at the first failing write and returns its value, or returns 0 after making every write when none fails |
| Sink.DeliverText | src/htmlerror.c:120-145 | the client receives exactly the writes made before the first failing one, in order |
| Sink.DeliverSucceeds | src/htmlerror.c:152 | the result is 0 exactly when no write fails; the client then receives every write |
| Renderer.CStrLen | src/htmlerror.c:113 | the scan of a chunk covers exactly the characters before its first NUL |
| Renderer.PlainTextVerbatim | src/htmlerror.c:141-146 | brace-free text is written unchanged, one character per write, and the scanner stays in the literal state |
| Renderer.NameAccumulates | src/htmlerror.c:141-146 | inside a variable, brace-free text only extends the name and writes nothing |
| Renderer.VariableSubstitution | src/htmlerror.c:115-123 | `{name}` writes the value bound to `name`, or exactly `(unknown)` when there is none, and ends in the literal state |
| Renderer.EscapedBrace | src/htmlerror.c:129-146 | `{{` writes one `{`, and scanning continues in the literal state |
| Renderer.LiteralCloseBrace | src/htmlerror.c:124-127 | a `}` outside a variable is written as it is, and the state is unchanged |
| Renderer.OpenBraceInsideName | src/htmlerror.c:136-146 | `{name{` drops the name read so far, writes one `{`, and continues in the literal state |
| Renderer.UnterminatedDropped | src/htmlerror.c:136-150 | a variable still open at the end of a chunk writes nothing |
| Renderer.TextThenVariable | src/htmlerror.c:115-146 | brace-free text then `{name}` writes the text character by character, then the value |
| Renderer.NulEndsLine | src/htmlerror.c:113 | characters after the first NUL of a chunk are never scanned |
| Renderer.LinesIndependent | src/htmlerror.c:150 | the writes of a template are the writes of its first chunks followed by those of the rest, whatever state the first chunks end in |
| Renderer.PlainTemplateVerbatim | src/htmlerror.c:112-151 | a template without braces or NULs is sent character by character, unchanged |
| Renderer.EscapeExample | src/htmlerror.c:129-146 | `{{abc}` renders as `{abc}` |
| Renderer.UnterminatedExample | src/htmlerror.c:136-150 | `abc{def` renders as `abc` |
| Renderer.MissingExample | src/htmlerror.c:118-119 | `{missing}` renders as `(unknown)` when `missing` is unbound |
| Renderer.SwitchChar | src/htmlerror.c:114-148 | the C `switch` on one character, with its `in_variable` flag and `varstart` index, makes the same write and reaches the same state as one step of the scan |
| Renderer.SendChunk | src/htmlerror.c:113-149 | the inner loop over one chunk, entered with `in_variable` clear, returns and delivers exactly what delivering that chunk's writes would, and on success leaves `in_variable` set exactly when a variable is still open at the chunk's first NUL |
| Renderer.SendHtmlFile | src/htmlerror.c:106-153 | the streaming renderer, which keeps `in_variable` across chunks and clears it after each one, agrees with the reference rendering of the whole template; when it returns 0, the client has received the full rendered text |
| Responder.AddStandardVars | src/htmlerror.c:229-245 | returns 0 or -1; changes only the variable store; on success each standard name holds its non-NULL source, or keeps its earlier value when the source is NULL |
| Responder.StandardVariables | src/htmlerror.c:237-243 | after success: `version`, `package` and `date` are bound; `request`, `cause`, `clientip` and `clienthost` follow their sources; other names are untouched |
| Responder.IndicateHttpError | src/htmlerror.c:250-272 | returns 0 or -1; a failed caller pair makes it return -1 before the code is recorded, changing only the variable store; on success the code is recorded, the message or NULL is stored, and the standard variables take precedence over the caller's pairs |
| Responder.RecordedVariables | src/htmlerror.c:258-271 | after success, `cause` holds the message when its copy succeeded, `date` is bound, and a caller's non-standard name holds its last value |
| Responder.SendHttpErrorMessage | src/htmlerror.c:172-202 | the response makes at least one write (the headers) and never changes which writes fail |
| Responder.SendBody | src/htmlerror.c:191-201 | what follows the header write never changes which writes fail |
| Responder.BodyExtends | src/htmlerror.c:191-201 | whatever the body writes, the client keeps what it had already received |
| Responder.ReliableBody | src/htmlerror.c:191-201 | on a sink that fails no more writes, the body (the rendered template, or the fallback page when the template does not open) is delivered in full and the result is 0 |
| Responder.HttpHeaders | src/htmlerror.c:155-167 | builds the text `send_http_headers` formats: the status line with the code as `%d` and the message, the `Server: PACKAGE/VERSION` line, the content type, `Connection: close` and the blank line; it carries no `ensures`, and `Scenarios.NotFoundStatusLine` states its status line for 404 |
| Responder.FallbackPage | src/htmlerror.c:178-187 | builds the text of the `fallback_error` format: the message in the title and again in the `<center>` block, `PACKAGE` and `VERSION`, and `errno` as `%d` with `strerror(errno)`; it carries no `ensures`, and `Responder.ReliableBody` states when it is sent |
| Responder.HeadersFirst | src/htmlerror.c:189 | when the header write succeeds, the client has received the headers before anything else of the response |
| Responder.ReliableResponse | src/htmlerror.c:172-202 | when no write fails, the result is 0 and the client receives the headers followed by the rendered template, or by the fallback page when the template does not open |
| Responder.HeaderFailureIgnored | src/htmlerror.c:189-201 | a failed header write does not stop the response: when every later write succeeds, the body is delivered and the result is 0 |
| Scenarios.LineWithTwoVariables | src/htmlerror.c:115-146 | a chunk `text1{name1}text2{name2}` without other braces or NULs renders as `text1`, the value of `name1`, `text2`, and the value of `name2` |
| Scenarios.CauseAtDateRenders | src/htmlerror.c:115-146 | the line `Error {cause} at {date}` renders as `Error `, the value of `cause`, ` at `, and the value of `date` |
| Scenarios.NotFoundStatusLine | src/htmlerror.c:155-166 | the headers for 404 "Not Found" begin with `HTTP/1.0 404 Not Found` |
| Scenarios.NotFoundResponse | src/htmlerror.c:172-202 | after recording 404 "Not Found" with a template `Error {cause} at {date}`, the client receives the headers, then `Error Not Found at ` and the date, and the result is 0 |
| Scenarios.MissingTemplateResponse | src/htmlerror.c:191-197 | when the template does not open and no write fails, the client receives the headers and then the fallback page, and the result is 0 |

## Left out

- File I/O (`fopen`, `fgets`, `fclose`) is not modelled: a template is given
  as the sequence of chunks `fgets` would return. The 4096-byte limit on a
  chunk is therefore not modelled either. A caller that splits a long line
  into chunks sees the state reset between them (`LinesIndependent`).
- Opening the template is the map `files`: a path opens exactly when it is a
  key, and `errno`/`strerror(errno)` of a failed open are an input.
- `write_message` and the socket are not modelled: each call is one write
  whose success is decided by the sink's outcomes. Partial writes and the
  `printf` formatting are not modelled; the formatted text is built directly.
- `time`, `gmtime` and `strftime` are not modelled: the date is an input
  string.
- hashmap.c is not part of this model. Its contract is assumed: exact-key
  lookup, and a later insertion of a key replaces the earlier value. Bucket
  counts, case-insensitive keys and duplicate entries are not modelled.
- The `hashmap_return_entry` failure branches (`get_html_file` and
  `lookup_variable` returning the fallback or NULL after a successful find)
  are not modelled: a found entry is always returned.
- `va_list` handling is replaced by a sequence of (name, value) pairs. A NULL
  value in a pair is not modelled.
- `errorpage_undef` is always a string; a NULL fallback path is not modelled.
- `safestrdup` is modelled only as an allocation that can fail.
- Registering pages from the configuration file is not part of
  `htmlerror.c`. `LoadErrorPages` folds the corrected registration over
  configured pairs only to state `LoadResolves`.
- Responder.SendBody: its own contract states only that it keeps the sink's
  outcomes; `BodyExtends` and `ReliableBody` state what it sends.
- Responder.SendHttpErrorMessage: its own contract states only that it makes
  at least one write and keeps the sink's outcomes. What it sends is stated
  by `HeadersFirst`, `ReliableResponse`, `HeaderFailureIgnored` and the
  scenarios. Keeping the text of the fallback page out of the function's own
  contract keeps the proofs small. It also requires `error_string` to be
  non-NULL. `indicate_http_error` can leave it NULL and still return 0, when
  the copy of the message cannot be allocated. The C code would then pass
  NULL to `%s` at src/htmlerror.c:189 and 193-197, which is undefined
  behaviour. The model does not give that case a result.
- The NUL that the C code writes over a closing `}` (to end the variable
  name in place) is not modelled. The loop steps past that position anyway,
  so nothing observable changes.

## Findings

| source | as written | input that shows it | evidently intended | confidence | as-written member | corrected member |
|---|---|---|---|---|---|---|
| src/htmlerror.c:39 | `add_new_errorpage` assigns a fresh `hashmap_create` result to `config.errorpages` on every call, so each registration discards all earlier ones (and leaks the old map) | register 404, then 500, with every allocation succeeding: 404 then resolves to `errorpage_undef` (`ErrorPages.RegistrationLoss`) | create the map only when `config.errorpages` is NULL, as `add_error_variable` does at src/htmlerror.c:213-215, so registrations accumulate | high; not executed | ErrorPages.AddNewErrorpage | ErrorPages.AddErrorpage |

=== FILE: errorpages.dfy ===
/** The error-page registry: a map from status code to template path, plus the
    configured fallback path `errorpage_undef` (src/htmlerror.c:29-78). */
module ErrorPages {
  import opened Wrappers
  import opened Hashmap
  import opened Numerals

  /** An `unsigned int` error number as the configuration passes it. */
  type uint32 = x: nat | x < 0x1_0000_0000

  /** The registry part of the process configuration: `errorpages` is `None`
      while the map pointer is NULL. */
  datatype Config = Config(errorpages: Option<Entries>, errorpageUndef: string)

  /** The result of a registration: the updated configuration, the allocator,
      and the C return value (0 on success, -1 on failure). */
  datatype Registration = Registration(cfg: Config, alloc: Allocator, ret: int)

  /** Size of the key buffer: seven digits and the terminating NUL. */
  const ErrorNumBufSize: nat := 8

  /** The map key of an error number: its decimal text, cut to what fits in
      the key buffer. */
  function ErrorKey(errornum: uint32): (k: string)
    ensures |k| < ErrorNumBufSize
    ensures k <= Decimal(errornum)
    ensures |Decimal(errornum)| < ErrorNumBufSize ==> k == Decimal(errornum)
    ensures |Decimal(errornum)| >= ErrorNumBufSize ==> |k| == ErrorNumBufSize - 1
  {
    var d := Decimal(errornum);
    if |d| < ErrorNumBufSize then d else d[..ErrorNumBufSize - 1]
  }

  /** A valid code has three digits, so its key is its whole decimal text. */
  lemma ValidCodeKey(code: uint32)
    requires ValidCode(code)
    ensures ErrorKey(code) == Decimal(code)
  {
    assert Pow10(3) == 1000;
    DecimalLength(code, 3);
  }

  /** Status codes the lookup accepts. */
  predicate ValidCode(code: int) {
    100 <= code < 1000
  }

  /** Two valid codes never share a key. */
  lemma ErrorKeyInjective(a: uint32, b: uint32)
    requires ValidCode(a) && ValidCode(b)
    ensures ErrorKey(a) == ErrorKey(b) <==> a == b
  {
    ValidCodeKey(a);
    ValidCodeKey(b);
    DecimalInjective(a, b);
  }

  /** A valid code shares its key with no other number, whether or not that
      number is itself valid: shorter numbers have at most two digits, and
      longer ones keep at least four after truncation. */
  lemma KeyDistinct(code: uint32, other: uint32)
    requires ValidCode(code)
    ensures ErrorKey(code) == ErrorKey(other) <==> code == other
  {
    ValidCodeKey(code);
    if ValidCode(other) {
      ErrorKeyInjective(code, other);
    } else if other < 100 {
      assert Pow10(2) == 100;
      DecimalLength(other, 2);
      DecimalLengthAtLeast(code, 2);
    } else {
      assert Pow10(3) == 1000;
      DecimalLength(code, 3);
      DecimalLengthAtLeast(other, 3);
    }
  }

  /** An eight-digit number loses its last digit to the key buffer, so numbers
      that differ only in that digit share a key. */
  lemma KeyDropsLastDigit(n: uint32)
    requires Pow10(7) <= n < Pow10(8)
    ensures ErrorKey(n) == Decimal(n / 10)
    ensures forall m: uint32 :: m / 10 == n / 10 ==> ErrorKey(m) == ErrorKey(n)
  {
    assert Pow10(6) * 10 == Pow10(7);
    DecimalLength(n / 10, 7);
    DecimalLengthAtLeast(n / 10, 6);
    assert Decimal(n)[..7] == Decimal(n / 10);
    forall m: uint32 | m / 10 == n / 10
      ensures ErrorKey(m) == ErrorKey(n)
    {
      assert Pow10(7) <= m < Pow10(8);
      assert Decimal(m)[..7] == Decimal(m / 10);
    }
  }

  /** `add_new_errorpage` AS WRITTEN: every call replaces the registry by a
      fresh map (or by NULL when that allocation fails) before inserting. */
  function AddNewErrorpage(cfg: Config, filepath: string, errornum: uint32, alloc: Allocator): (r: Registration)
    ensures r.cfg.errorpageUndef == cfg.errorpageUndef
    ensures r.ret == 0 || r.ret == -1
    ensures r.ret == 0 ==> r.cfg.errorpages == Some(map[ErrorKey(errornum) := filepath])
    ensures r.ret == -1 ==> r.cfg.errorpages.None? || r.cfg.errorpages == Some(map[])
  {
    var (h, a1) := Create(alloc);
    if h.None? then
      Registration(cfg.(errorpages := None), a1, -1)
    else
      var (ok, m, a2) := Insert(h.value, ErrorKey(errornum), filepath, a1);
      Registration(cfg.(errorpages := Some(m)), a2, if ok then 0 else -1)
  }

  /** `add_new_errorpage` as evidently intended: the map is created only when
      it is absent, and later registrations add to it. */
  function AddErrorpage(cfg: Config, filepath: string, errornum: uint32, alloc: Allocator): (r: Registration)
    ensures r.cfg.errorpageUndef == cfg.errorpageUndef
    ensures r.ret == 0 || r.ret == -1
    ensures cfg.errorpages.Some? ==> r.cfg.errorpages.Some?
    ensures r.ret == 0 ==> r.cfg.errorpages.Some? && r.cfg.errorpages.value.Keys == Keys(cfg) + {ErrorKey(errornum)}
    ensures r.ret == -1 ==> forall k :: Find(r.cfg.errorpages, k) == Find(cfg.errorpages, k)
  {
    var (h, a1) := if cfg.errorpages.Some? then (cfg.errorpages, alloc) else Create(alloc);
    if h.None? then
      Registration(cfg, a1, -1)
    else
      var (ok, m, a2) := Insert(h.value, ErrorKey(errornum), filepath, a1);
      Registration(cfg.(errorpages := Some(m)), a2, if ok then 0 else -1)
  }

  function Keys(cfg: Config): set<string> {
    if cfg.errorpages.Some? then cfg.errorpages.value.Keys else {}
  }

  /** `get_html_file`: the path registered for `errornum`, or the fallback
      path when the registry is NULL or has no entry for it. */
  function GetHtmlFile(cfg: Config, errornum: uint32): (path: string)
    requires ValidCode(errornum)
    ensures path == cfg.errorpageUndef || (cfg.errorpages.Some? && path in cfg.errorpages.value.Values)
    ensures cfg.errorpages.None? ==> path == cfg.errorpageUndef
    ensures cfg.errorpages.Some? && Decimal(errornum) in cfg.errorpages.value
            ==> path == cfg.errorpages.value[Decimal(errornum)]
    ensures cfg.errorpages.Some? && Decimal(errornum) !in cfg.errorpages.value
            ==> path == cfg.errorpageUndef
  {
    ValidCodeKey(errornum);
    Find(cfg.errorpages, ErrorKey(errornum)).GetOr(cfg.errorpageUndef)
  }

  /** After a successful registration (as written) of any number, in range or
      not, the registered code resolves to its path and every other valid code
      to the fallback. */
  lemma AsWrittenKeepsOnlyLatest(cfg: Config, filepath: string, errornum: uint32, alloc: Allocator, code: uint32)
    requires ValidCode(code)
    requires AddNewErrorpage(cfg, filepath, errornum, alloc).ret == 0
    ensures GetHtmlFile(AddNewErrorpage(cfg, filepath, errornum, alloc).cfg, code)
            == if code == errornum then filepath else cfg.errorpageUndef
  {
    KeyDistinct(code, errornum);
  }

  /** The defect of the code as written: of two successful registrations for
      different codes, the first is lost and its code falls back to
      `errorpage_undef`. */
  lemma RegistrationLoss(cfg: Config, p1: string, c1: uint32, p2: string, c2: uint32, alloc: Allocator)
    requires ValidCode(c1) && ValidCode(c2) && c1 != c2
    requires AddNewErrorpage(cfg, p1, c1, alloc).ret == 0
    ensures var r1 := AddNewErrorpage(cfg, p1, c1, alloc);
            var r2 := AddNewErrorpage(r1.cfg, p2, c2, r1.alloc);
            r2.ret == 0 ==> GetHtmlFile(r2.cfg, c1) == cfg.errorpageUndef && GetHtmlFile(r2.cfg, c2) == p2
  {
    KeyDistinct(c1, c2);
  }

  /** With the corrected registration, a successful registration of any
      number binds its code and leaves every other valid code resolving as
      before. */
  lemma CumulativeRegistration(cfg: Config, filepath: string, errornum: uint32, alloc: Allocator, code: uint32)
    requires ValidCode(code)
    requires AddErrorpage(cfg, filepath, errornum, alloc).ret == 0
    ensures GetHtmlFile(AddErrorpage(cfg, filepath, errornum, alloc).cfg, code)
            == if code == errornum then filepath else GetHtmlFile(cfg, code)
  {
    KeyDistinct(code, errornum);
  }

  /** Applies configured (code, path) registrations in order with the
      corrected registration, stopping at the first failure. */
  function LoadErrorPages(cfg: Config, entries: seq<(uint32, string)>, alloc: Allocator): (r: Registration)
    ensures r.cfg.errorpageUndef == cfg.errorpageUndef
    ensures r.ret == 0 || r.ret == -1
    decreases |entries|
  {
    if entries == [] then Registration(cfg, alloc, 0)
    else
      var r1 := AddErrorpage(cfg, entries[0].1, entries[0].0, alloc);
      if r1.ret != 0 then r1 else LoadErrorPages(r1.cfg, entries[1..], r1.alloc)
  }

  /** After loading entries successfully, whatever numbers they carry, every
      valid code resolves to the path registered last for it, or as before
      when it has none. */
  lemma {:induction false} LoadResolves(cfg: Config, entries: seq<(uint32, string)>, alloc: Allocator, code: uint32)
    requires ValidCode(code)
    requires LoadErrorPages(cfg, entries, alloc).ret == 0
    ensures GetHtmlFile(LoadErrorPages(cfg, entries, alloc).cfg, code)
            == LastBound(entries, code).GetOr(GetHtmlFile(cfg, code))
    decreases |entries|
  {
    if entries != [] {
      var r1 := AddErrorpage(cfg, entries[0].1, entries[0].0, alloc);
      CumulativeRegistration(cfg, entries[0].1, entries[0].0, alloc, code);
      LoadResolves(r1.cfg, entries[1..], r1.alloc, code);
    }
  }
}

=== FILE: hashmap.dfy ===
/** The contract assumed of the associative container behind both the
    error-page registry and the per-connection variable store, together with
    an allocation oracle that decides which allocations fail.

    The container implementation (hashmap.c) is not part of this model: only
    the behaviour its callers rely on is stated here. A handle is `None` when
    the C pointer is NULL. */
module Hashmap {
  import opened Wrappers

  /** Which allocation attempts fail: attempt number `count` fails exactly when
      it is in `failing`. Every `hashmap_create`, `hashmap_insert` and string
      copy consumes one attempt. */
  datatype Allocator = Allocator(failing: set<nat>, count: nat)

  /** One allocation attempt: whether it succeeded, and the allocator after it. */
  function Allocate(a: Allocator): (r: (bool, Allocator))
    ensures r.0 <==> a.count !in a.failing
    ensures r.1.failing == a.failing && r.1.count == a.count + 1
  {
    (a.count !in a.failing, a.(count := a.count + 1))
  }

  type Entries = map<string, string>

  /** `hashmap_create`: an empty map, or NULL when allocation fails. */
  function Create(a: Allocator): (Option<Entries>, Allocator)
  {
    var (ok, a') := Allocate(a);
    (if ok then Some(map[]) else None, a')
  }

  /** `hashmap_insert`: binds `key` to `val` (replacing an earlier binding),
      or leaves the map as it was when allocation fails. */
  function Insert(m: Entries, key: string, val: string, a: Allocator): (bool, Entries, Allocator)
  {
    var (ok, a') := Allocate(a);
    (ok, if ok then m[key := val] else m, a')
  }

  /** `hashmap_find` followed by `hashmap_return_entry`: the bound value, or an
      explicit miss; a NULL map finds nothing. */
  function Find(h: Option<Entries>, key: string): Option<string>
  {
    if h.Some? && key in h.value then Some(h.value[key]) else None
  }
}

=== FILE: numerals.dfy ===
/** Decimal rendering of unsigned numbers, as `snprintf("%u")` and
    `printf("%d")` produce it, with its inverse. */
module Numerals {

  /** The text of a non-negative number in base ten, most significant digit first. */
  function Decimal(n: nat): (s: string)
    ensures |s| >= 1
    ensures forall i :: 0 <= i < |s| ==> '0' <= s[i] <= '9'
    ensures n >= 10 ==> s[0] != '0'
    decreases n
  {
    if n < 10 then [DigitChar(n)] else Decimal(n / 10) + [DigitChar(n % 10)]
  }

  function DigitChar(d: nat): (c: char)
    requires d < 10
    ensures '0' <= c <= '9'
  {
    (48 + d) as char
  }

  /** The number a string of decimal digits denotes. */
  function ParseDecimal(s: string): nat
    requires forall i :: 0 <= i < |s| ==> '0' <= s[i] <= '9'
    decreases |s|
  {
    if s == [] then 0
    else ParseDecimal(s[..|s| - 1]) * 10 + ((s[|s| - 1] as int) - 48)
  }

  /** `printf("%d")` of a signed integer. */
  function FormatInt(n: int): string {
    if n < 0 then "-" + Decimal(-n) else Decimal(n)
  }

  function Pow10(k: nat): (p: nat)
    ensures p >= 1
  {
    if k == 0 then 1 else 10 * Pow10(k - 1)
  }

  /** Reading back the rendered digits gives the number again. */
  lemma {:induction false} DecimalRoundTrip(n: nat)
    ensures ParseDecimal(Decimal(n)) == n
    decreases n
  {
    if n >= 10 {
      DecimalRoundTrip(n / 10);
      var s := Decimal(n);
      assert s[..|s| - 1] == Decimal(n / 10);
    }
  }

  /** Distinct numbers render to distinct texts. */
  lemma DecimalInjective(a: nat, b: nat)
    ensures Decimal(a) == Decimal(b) ==> a == b
  {
    DecimalRoundTrip(a);
    DecimalRoundTrip(b);
  }

  /** A number below 10^k needs at most k digits. */
  lemma {:induction false} DecimalLength(n: nat, k: nat)
    requires k >= 1 && n < Pow10(k)
    ensures |Decimal(n)| <= k
    decreases n
  {
    if n >= 10 {
      DecimalLength(n / 10, k - 1);
    }
  }

  /** A number of at least 10^k needs more than k digits. */
  lemma {:induction false} DecimalLengthAtLeast(n: nat, k: nat)
    requires Pow10(k) <= n
    ensures |Decimal(n)| > k
    decreases k
  {
    if k > 0 {
      DecimalLengthAtLeast(n / 10, k - 1);
    }
  }
}

=== FILE: renderer.dfy ===
/** The template renderer `send_html_file` (src/htmlerror.c:101-153): a
    two-state scanner that copies template text to the client, replacing
    `{name}` by the value of variable `name`.

    A template is the sequence of chunks `fgets` returns, each keeping its
    line terminator. The scan of a chunk stops at its first NUL character,
    and the scanner returns to the literal state at the start of every chunk. */
module Renderer {
  import opened Variables
  import opened Sink

  /** Written in place of a variable that has no value. */
  const Unknown: string := "(unknown)"

  /** Outside any variable, or inside one with the part of its name read so far. */
  datatype ScanState = Literal | InVariable(name: string)

  /** What a variable reference expands to. */
  function ValueOf(vars: Vars, name: string): string {
    LookupVariable(vars, name).GetOr(Unknown)
  }

  /** One character of the scan: the next state and the writes it causes (at
      most one `write_message` call). */
  function Step(st: ScanState, c: char, vars: Vars): (ScanState, seq<string>) {
    if c == '}' then
      if st.InVariable? then (Literal, [ValueOf(vars, st.name)]) else (Literal, ["}"])
    else if c == '{' then
      if st.Literal? then (InVariable([]), []) else (Literal, ["{"])
    else if st.Literal? then (Literal, [[c]])
    else (InVariable(st.name + [c]), [])
  }

  /** The state reached and the writes made by scanning `s` from state `st`. */
  function Scan(st: ScanState, s: string, vars: Vars): (ScanState, seq<string>)
    decreases |s|
  {
    if s == [] then (st, [])
    else
      var prev := Scan(st, s[..|s| - 1], vars);
      var next := Step(prev.0, s[|s| - 1], vars);
      (next.0, prev.1 + next.1)
  }

  /** The C string length of a chunk: the index of its first NUL, or its length. */
  function CStrLen(line: string): (n: nat)
    ensures n <= |line|
    ensures forall i :: 0 <= i < n ==> line[i] != '\0'
    ensures n < |line| ==> line[n] == '\0'
    decreases |line|
  {
    if line == [] || line[0] == '\0' then 0 else 1 + CStrLen(line[1..])
  }

  /** The part of a chunk the scan sees. */
  function Visible(line: string): string {
    line[..CStrLen(line)]
  }

  /** The writes for one chunk, always scanned from the literal state. */
  function LineWrites(line: string, vars: Vars): seq<string> {
    Scan(Literal, Visible(line), vars).1
  }

  /** The writes for a whole template. */
  function TemplateWrites(lines: seq<string>, vars: Vars): seq<string>
    decreases |lines|
  {
    if lines == [] then []
    else TemplateWrites(lines[..|lines| - 1], vars) + LineWrites(lines[|lines| - 1], vars)
  }

  /** The result of rendering a template to a sink: the value returned and the
      sink afterwards. */
  function Render(lines: seq<string>, vars: Vars, sink: Sink): (int, Sink) {
    Deliver(sink, TemplateWrites(lines, vars))
  }

  predicate NoBraces(s: string) {
    forall i :: 0 <= i < |s| ==> s[i] != '{' && s[i] != '}'
  }

  predicate NoNul(s: string) {
    forall i :: 0 <= i < |s| ==> s[i] != '\0'
  }

  /** Each character as a write of its own. */
  function Chars(s: string): (ws: seq<string>)
    ensures |ws| == |s|
    ensures forall i :: 0 <= i < |s| ==> ws[i] == [s[i]]
  {
    seq(|s|, i requires 0 <= i < |s| => [s[i]])
  }

  // ---------------------------------------------------------------------
  // The scan, piece by piece

  /** Scanning two pieces of one chunk is scanning the first, then the second
      from where the first left off. */
  lemma {:induction false} ScanAppend(st: ScanState, a: string, b: string, vars: Vars)
    ensures var r1 := Scan(st, a, vars);
            var r2 := Scan(r1.0, b, vars);
            Scan(st, a + b, vars) == (r2.0, r1.1 + r2.1)
    decreases |b|
  {
    var r1 := Scan(st, a, vars);
    if b == [] {
      assert a + b == a;
      assert r1.1 + [] == r1.1;
    } else {
      var b' := b[..|b| - 1];
      assert (a + b)[..|a + b| - 1] == a + b';
      assert (a + b)[|a + b| - 1] == b[|b| - 1];
      ScanAppend(st, a, b', vars);
      var mid := Scan(r1.0, b', vars);
      var next := Step(mid.0, b[|b| - 1], vars);
      assert Scan(r1.0, b, vars) == (next.0, mid.1 + next.1);
      assert Scan(st, a + b, vars) == (next.0, (r1.1 + mid.1) + next.1);
      assert (r1.1 + mid.1) + next.1 == r1.1 + (mid.1 + next.1);
    }
  }

  /** Text without braces passes through unchanged, one write per character. */
  lemma {:induction false} PlainTextVerbatim(s: string, vars: Vars)
    requires NoBraces(s)
    ensures Scan(Literal, s, vars) == (Literal, Chars(s))
    decreases |s|
  {
    if s != [] {
      var s' := s[..|s| - 1];
      PlainTextVerbatim(s', vars);
      assert Chars(s') + [[s[|s| - 1]]] == Chars(s);
    }
  }

  /** Inside a variable, brace-free text only extends the name; nothing is written. */
  lemma {:induction false} NameAccumulates(prefix: string, name: string, vars: Vars)
    requires NoBraces(name)
    ensures Scan(InVariable(prefix), name, vars) == (InVariable(prefix + name), [])
    decreases |name|
  {
    if name != [] {
      var name' := name[..|name| - 1];
      var c := name[|name| - 1];
      assert NoBraces(name') by {
        forall i | 0 <= i < |name'| ensures name'[i] != '{' && name'[i] != '}' {
          assert name'[i] == name[i];
        }
      }
      NameAccumulates(prefix, name', vars);
      assert c != '{' && c != '}';
      assert Step(InVariable(prefix + name'), c, vars) == (InVariable(prefix + name' + [c]), []);
      assert prefix + name' + [c] == prefix + name;
      assert Scan(InVariable(prefix), name, vars).1 == [] + [];
    } else {
      assert prefix + name == prefix;
    }
  }

  /** Scanning one character is one step. */
  lemma ScanOne(st: ScanState, c: char, vars: Vars)
    ensures Scan(st, [c], vars) == Step(st, c, vars)
  {
    assert [c][..0] == [];
    var empty: seq<string> := [];
    assert empty + Step(st, c, vars).1 == Step(st, c, vars).1;
  }

  /** Scanning a character after a piece is one more step. */
  lemma ScanSnoc(st: ScanState, a: string, c: char, vars: Vars)
    ensures var r := Scan(st, a, vars);
            var next := Step(r.0, c, vars);
            Scan(st, a + [c], vars) == (next.0, r.1 + next.1)
  {
    assert (a + [c])[..|a|] == a;
  }

  /** Scanning a character before a piece is one step, then the piece. */
  lemma ScanCons(st: ScanState, c: char, b: string, vars: Vars)
    ensures var first := Step(st, c, vars);
            var r := Scan(first.0, b, vars);
            Scan(st, [c] + b, vars) == (r.0, first.1 + r.1)
  {
    ScanAppend(st, [c], b, vars);
    ScanOne(st, c, vars);
  }

  /** `{name}` writes the value bound to `name`, and exactly `(unknown)` when
      there is none. */
  lemma VariableSubstitution(name: string, vars: Vars)
    requires NoBraces(name)
    ensures var v := LookupVariable(vars, name);
            Scan(Literal, "{" + name + "}", vars) == (Literal, [if v.Some? then v.value else Unknown])
  {
    var empty: seq<string> := [];
    assert Scan(Literal, ['{'] + name, vars) == (InVariable(name), empty) by {
      ScanCons(Literal, '{', name, vars);
      NameAccumulates([], name, vars);
      assert [] + name == name;
    }
    ScanSnoc(Literal, ['{'] + name, '}', vars);
    assert "{" + name + "}" == (['{'] + name) + ['}'];
    var next := Step(InVariable(name), '}', vars);
    assert Scan(Literal, "{" + name + "}", vars) == (next.0, empty + next.1);
    assert empty + next.1 == next.1;
  }

  /** Brace-free text followed by `{name}`: the text character by character,
      then the variable's value, ending in the literal state. */
  lemma TextThenVariable(text: string, name: string, vars: Vars)
    requires NoBraces(text) && NoBraces(name)
    ensures Scan(Literal, text + "{" + name + "}", vars) == (Literal, Chars(text) + [ValueOf(vars, name)])
  {
    assert text + "{" + name + "}" == text + ("{" + name + "}");
    PlainTextVerbatim(text, vars);
    VariableSubstitution(name, vars);
    ScanAppend(Literal, text, "{" + name + "}", vars);
  }

  /** `{{` writes one `{` and leaves the scanner in the literal state. */
  lemma EscapedBrace(s: string, vars: Vars)
    ensures var r := Scan(Literal, s, vars);
            Scan(Literal, "{{" + s, vars) == (r.0, ["{"] + r.1)
  {
    assert "{{" + s == ['{'] + (['{'] + s);
    ScanCons(Literal, '{', ['{'] + s, vars);
    ScanCons(InVariable([]), '{', s, vars);
    var r := Scan(Literal, s, vars);
    var empty: seq<string> := [];
    assert Scan(InVariable([]), ['{'] + s, vars) == (r.0, ["{"] + r.1);
    assert empty + (["{"] + r.1) == ["{"] + r.1;
  }

  /** A `}` in the literal state is written as it is; the state is unchanged. */
  lemma LiteralCloseBrace(s: string, vars: Vars)
    ensures var r := Scan(Literal, s, vars);
            Scan(Literal, "}" + s, vars) == (r.0, ["}"] + r.1)
  {
    assert "}" + s == ['}'] + s;
    ScanCons(Literal, '}', s, vars);
  }

  /** A `{` inside a variable is not only the `{{` escape: whatever name was
      read so far is dropped, one `{` is written, and scanning goes on in the
      literal state. */
  lemma OpenBraceInsideName(name: string, s: string, vars: Vars)
    requires NoBraces(name)
    ensures var r := Scan(Literal, s, vars);
            Scan(Literal, "{" + name + "{" + s, vars) == (r.0, ["{"] + r.1)
  {
    var empty: seq<string> := [];
    var r := Scan(Literal, s, vars);
    assert Scan(Literal, ['{'] + name, vars) == (InVariable(name), empty) by {
      ScanCons(Literal, '{', name, vars);
      NameAccumulates([], name, vars);
      assert [] + name == name;
    }
    assert Scan(InVariable(name), ['{'] + s, vars) == (r.0, ["{"] + r.1) by {
      ScanCons(InVariable(name), '{', s, vars);
    }
    assert "{" + name + "{" + s == (['{'] + name) + (['{'] + s);
    ScanAppend(Literal, ['{'] + name, ['{'] + s, vars);
    assert empty + (["{"] + r.1) == ["{"] + r.1;
  }

  /** A variable left open at the end of a chunk writes nothing. */
  lemma UnterminatedDropped(prefix: string, name: string, vars: Vars)
    requires Scan(Literal, prefix, vars).0 == Literal
    requires NoBraces(name)
    ensures Scan(Literal, prefix + "{" + name, vars) == (InVariable(name), Scan(Literal, prefix, vars).1)
  {
    var w := Scan(Literal, prefix, vars).1;
    var empty: seq<string> := [];
    assert prefix + "{" + name == prefix + (['{'] + name);
    assert Scan(Literal, ['{'] + name, vars) == (InVariable(name), empty) by {
      ScanCons(Literal, '{', name, vars);
      NameAccumulates([], name, vars);
      assert [] + name == name;
    }
    ScanAppend(Literal, prefix, ['{'] + name, vars);
    assert w + empty == w;
  }

  /** The scan of a chunk ends at its first NUL. */
  lemma NulEndsLine(a: string, b: string, vars: Vars)
    requires NoNul(a)
    ensures LineWrites(a + "\0" + b, vars) == Scan(Literal, a, vars).1
  {
    var line := a + "\0" + b;
    assert line[|a|] == '\0';
    assert line[..|a|] == a;
  }

  /** Chunks render independently: the writes for a template are the writes
      for its first part followed by those for the rest, whatever state the
      first part ended in. */
  lemma {:induction false} LinesIndependent(a: seq<string>, b: seq<string>, vars: Vars)
    ensures TemplateWrites(a + b, vars) == TemplateWrites(a, vars) + TemplateWrites(b, vars)
    decreases |b|
  {
    if b == [] {
      assert a + b == a;
    } else {
      var b' := b[..|b| - 1];
      var last := LineWrites(b[|b| - 1], vars);
      assert (a + b)[..|a + b| - 1] == a + b';
      assert (a + b)[|a + b| - 1] == b[|b| - 1];
      assert TemplateWrites(a + b, vars) == TemplateWrites(a + b', vars) + last;
      LinesIndependent(a, b', vars);
      assert TemplateWrites(b, vars) == TemplateWrites(b', vars) + last;
      SeqAssoc(TemplateWrites(a, vars), TemplateWrites(b', vars), last);
    }
  }

  lemma SeqAssoc<T>(a: seq<T>, b: seq<T>, c: seq<T>)
    ensures (a + b) + c == a + (b + c)
  {
  }

  lemma {:induction false} FlattenChars(s: string)
    ensures Flatten(Chars(s)) == s
    decreases |s|
  {
    if s != [] {
      assert Chars(s)[1..] == Chars(s[1..]);
      FlattenChars(s[1..]);
    }
  }

  /** A template without braces or NUL characters is copied to the client
      exactly. */
  lemma {:induction false} PlainTemplateVerbatim(lines: seq<string>, vars: Vars)
    requires forall i :: 0 <= i < |lines| ==> NoBraces(lines[i]) && NoNul(lines[i])
    ensures TemplateWrites(lines, vars) == CharWrites(lines)
    decreases |lines|
  {
    if lines != [] {
      var last := lines[|lines| - 1];
      PlainTemplateVerbatim(lines[..|lines| - 1], vars);
      assert Visible(last) == last;
      PlainTextVerbatim(last, vars);
    }
  }

  /** Every character of every chunk as a write of its own. */
  function CharWrites(lines: seq<string>): seq<string>
    decreases |lines|
  {
    if lines == [] then [] else CharWrites(lines[..|lines| - 1]) + Chars(lines[|lines| - 1])
  }

  /** A chunk without NUL characters is scanned whole. */
  lemma VisibleWhole(line: string)
    requires NoNul(line)
    ensures Visible(line) == line
  {
  }

  lemma FlattenOne(w: string)
    ensures Flatten([w]) == w
  {
    assert [w][1..] == [];
  }

  /** `{{abc}` renders as `{abc}`. */
  lemma EscapeExample(vars: Vars)
    ensures Flatten(LineWrites("{{abc}", vars)) == "{abc}"
  {
    var line := "{{abc}";
    var w := Chars("abc");
    assert NoBraces("abc");
    assert LineWrites(line, vars) == ["{"] + (w + ["}"]) by {
      VisibleWhole(line);
      assert line == "{{" + ("abc" + ['}']);
      EscapedBrace("abc" + ['}'], vars);
      PlainTextVerbatim("abc", vars);
      ScanSnoc(Literal, "abc", '}', vars);
    }
    assert Flatten(["{"] + (w + ["}"])) == "{" + ("abc" + "}") by {
      FlattenAppend(["{"], w + ["}"]);
      FlattenAppend(w, ["}"]);
      FlattenChars("abc");
      FlattenOne("{");
      FlattenOne("}");
    }
    assert "{" + ("abc" + "}") == "{abc}";
  }

  /** `abc{def` renders as `abc`. */
  lemma UnterminatedExample(vars: Vars)
    ensures Flatten(LineWrites("abc{def", vars)) == "abc"
  {
    var line := "abc{def";
    assert NoBraces("abc") && NoBraces("def");
    assert LineWrites(line, vars) == Chars("abc") by {
      VisibleWhole(line);
      PlainTextVerbatim("abc", vars);
      assert line == "abc" + "{" + "def";
      UnterminatedDropped("abc", "def", vars);
    }
    FlattenChars("abc");
  }

  /** `{missing}` renders as `(unknown)` when `missing` is unbound. */
  lemma MissingExample(vars: Vars)
    requires LookupVariable(vars, "missing").None?
    ensures Flatten(LineWrites("{missing}", vars)) == "(unknown)"
  {
    var line := "{missing}";
    assert NoBraces("missing");
    assert LineWrites(line, vars) == [Unknown] by {
      VisibleWhole(line);
      assert line == "{" + "missing" + "}";
      VariableSubstitution("missing", vars);
    }
    FlattenOne(Unknown);
  }

  // ---------------------------------------------------------------------
  // The streaming implementation

  /** `write_message` for one piece of text. */
  method WriteMessage(s: Sink, data: string) returns (code: int, s': Sink)
    ensures (code, s') == Write(s, data)
  {
    var r := Write(s, data);
    code, s' := r.0, r.1;
  }

  /** One character of the streaming loop: the scan advances by one step and
      the sink sees that step's writes next. */
  lemma CharStep(start: Sink, line: string, p: nat, vars: Vars, out: Sink)
    requires p < |line|
    requires Deliver(start, Scan(Literal, line[..p], vars).1) == (0, out)
    ensures var r := Scan(Literal, line[..p], vars);
            var next := Step(r.0, line[p], vars);
            && Scan(Literal, line[..p + 1], vars) == (next.0, r.1 + next.1)
            && Deliver(start, Scan(Literal, line[..p + 1], vars).1) == Deliver(out, next.1)
  {
    var r := Scan(Literal, line[..p], vars);
    var next := Step(r.0, line[p], vars);
    assert line[..p + 1] == line[..p] + [line[p]];
    ScanSnoc(Literal, line[..p], line[p], vars);
    DeliverAppend(start, r.1, next.1);
  }

  lemma DeliverOne(s: Sink, data: string)
    ensures Deliver(s, [data]) == Write(s, data)
  {
    assert [data][1..] == [];
  }

  /** A failed write before position `p` of a chunk ends the chunk with its value. */
  lemma ChunkAbort(start: Sink, line: string, p: nat, vars: Vars)
    requires p <= CStrLen(line)
    requires Deliver(start, Scan(Literal, line[..p], vars).1).0 != 0
    ensures Deliver(start, LineWrites(line, vars)) == Deliver(start, Scan(Literal, line[..p], vars).1)
  {
    var vis := Visible(line);
    assert vis == line[..p] + vis[p..];
    ScanAppend(Literal, line[..p], vis[p..], vars);
    DeliverPrefixFailure(start, Scan(Literal, line[..p], vars).1, LineWrites(line, vars));
  }

  /** The `switch` on one character in `send_html_file`, in the C code's own
      terms: whether a variable is open and where its name starts. It
      returns the new flags and the one write to make, if any; this agrees
      with one step of the scan. */
  method SwitchChar(line: string, p: nat, inVariable: bool, varstart: nat, vars: Vars)
    returns (inVariable': bool, varstart': nat, writes: bool, data: string)
    requires p < |line| && varstart <= p
    ensures varstart' <= p + 1
    ensures var next := Step(if inVariable then InVariable(line[varstart..p]) else Literal, line[p], vars);
            && next.0 == (if inVariable' then InVariable(line[varstart'..p + 1]) else Literal)
            && next.1 == (if writes then [data] else [])
  {
    var c := line[p];
    inVariable', varstart', data := inVariable, varstart, [c];
    if c == '}' {
      writes := true;
      if inVariable {
        data := ValueOf(vars, line[varstart..p]);
        inVariable' := false;
      } else {
        data := "}";
      }
    } else {
      if c == '{' {
        // A `{{` prints a single `{`: a second `{` closes the variable and
        // falls through to the literal case.
        if !inVariable {
          varstart' := p + 1;
          inVariable' := true;
        } else {
          inVariable' := false;
        }
      } else if inVariable {
        assert line[varstart..p + 1] == line[varstart..p] + [c];
      }
      writes := !inVariable';
    }
  }

  /** A position holding no NUL, not past the first NUL, is before it. */
  lemma BeforeNul(line: string, p: nat)
    requires p <= CStrLen(line) && p < |line| && line[p] != '\0'
    ensures p < CStrLen(line)
  {
  }

  /** The body of the `fgets` loop of `send_html_file` for one chunk: scans it
      up to its first NUL, writing as it goes, and returns the first failed
      write's value, or 0, together with `in_variable` as the scan leaves it.
      The chunk is entered with `in_variable` clear, which the caller
      guarantees by clearing it after every chunk. */
  method SendChunk(line: string, vars: Vars, start: Sink, inVariableIn: bool)
      returns (ret: int, out: Sink, inVariable: bool)
    requires !inVariableIn
    ensures (ret, out) == Deliver(start, LineWrites(line, vars))
    ensures ret == 0 ==> (inVariable <==> Scan(Literal, Visible(line), vars).0.InVariable?)
  {
    out := start;
    inVariable := inVariableIn;
    var varstart: nat := 0;
    var p := 0;
    assert line[..0] == [];
    while p < |line| && line[p] != '\0'
      invariant p <= CStrLen(line)
      invariant varstart <= p
      invariant Scan(Literal, line[..p], vars).0 == if inVariable then InVariable(line[varstart..p]) else Literal
      invariant Deliver(start, Scan(Literal, line[..p], vars).1) == (0, out)
    {
      BeforeNul(line, p);
      CharStep(start, line, p, vars, out);
      var writes, data;
      inVariable, varstart, writes, data := SwitchChar(line, p, inVariable, varstart, vars);
      if writes {
        DeliverOne(out, data);
        var writeret;
        writeret, out := WriteMessage(out, data);
        if writeret != 0 {
          ChunkAbort(start, line, p + 1, vars);
          ret := writeret;
          return;
        }
      }
      p := p + 1;
    }
    assert line[..p] == Visible(line);
    ret := 0;
  }

  /** `send_html_file`: renders the template chunk by chunk, clearing
      `in_variable` after each chunk, and returns the first failed write's
      value, or 0 at the end of the template. */
  method SendHtmlFile(lines: seq<string>, vars: Vars, sink: Sink) returns (ret: int, out: Sink)
    ensures (ret, out) == Render(lines, vars, sink)
    ensures ret == 0 ==> out.delivered == sink.delivered + Flatten(TemplateWrites(lines, vars))
  {
    out := sink;
    var inVariable := false;
    var n := 0;
    while n < |lines|
      invariant n <= |lines|
      invariant !inVariable
      invariant Deliver(sink, TemplateWrites(lines[..n], vars)) == (0, out)
    {
      ghost var done := TemplateWrites(lines[..n], vars);
      assert lines[..n + 1][..n] == lines[..n];
      assert TemplateWrites(lines[..n + 1], vars) == done + LineWrites(lines[n], vars);
      DeliverAppend(sink, done, LineWrites(lines[n], vars));
      var writeret;
      writeret, out, inVariable := SendChunk(lines[n], vars, out, inVariable);
      if writeret != 0 {
        assert lines == lines[..n + 1] + lines[n + 1..];
        LinesIndependent(lines[..n + 1], lines[n + 1..], vars);
        DeliverPrefixFailure(sink, TemplateWrites(lines[..n + 1], vars), TemplateWrites(lines, vars));
        ret := writeret;
        return;
      }
      inVariable := false;
      n := n + 1;
    }
    assert lines[..n] == lines;
    DeliverSucceeds(sink, TemplateWrites(lines, vars));
    ret := 0;
  }
}

=== FILE: responder.dfy ===
/** Recording an HTTP error on a connection and sending the error response
    (src/htmlerror.c:155-202, 224-272). */
module Responder {
  import opened Wrappers
  import opened Hashmap
  import opened Numerals
  import opened ErrorPages
  import opened Variables
  import opened Sink
  import opened Renderer

  /** The parts of a connection the error code reads and writes. A `None`
      field is a NULL pointer. */
  datatype Conn = Conn(
    requestLine: Option<string>,
    errorString: Option<string>,
    clientIpAddr: Option<string>,
    clientStringAddr: Option<string>,
    errorNumber: int,
    errorVariables: Vars)

  /** The compile-time product name and version (`PACKAGE`, `VERSION`). */
  datatype Build = Build(package: string, version: string)

  /** Why a template could not be opened: `errno` and `strerror(errno)`. */
  datatype OpenError = OpenError(errno: int, description: string)

  /** A connection after recording, the allocator, and the C return value. */
  datatype Recorded = Recorded(conn: Conn, alloc: Allocator, ret: int)

  /** `safestrdup`: a copy of `s`, or NULL when allocation fails. */
  function SafeStrdup(s: string, alloc: Allocator): (Option<string>, Allocator) {
    var (ok, a') := Allocate(alloc);
    (if ok then Some(s) else None, a')
  }

  /** The standard variables in the order `add_standard_vars` adds them, each
      with its source; `date` is the already formatted current time. */
  function StandardSources(conn: Conn, build: Build, date: string): seq<(string, Option<string>)> {
    [ ("request", conn.requestLine),
      ("cause", conn.errorString),
      ("clientip", conn.clientIpAddr),
      ("clienthost", conn.clientStringAddr),
      ("version", Some(build.version)),
      ("package", Some(build.package)),
      ("date", Some(date)) ]
  }

  /** Every connection field except the variable store. */
  predicate SameExceptVars(a: Conn, b: Conn) {
    a == b.(errorVariables := a.errorVariables)
  }

  /** `add_standard_vars`: adds each standard variable whose source is not
      NULL, stopping at the first failed insertion. */
  function AddStandardVars(conn: Conn, build: Build, date: string, alloc: Allocator): (r: Recorded)
    ensures r.ret == 0 || r.ret == -1
    ensures SameExceptVars(conn, r.conn)
    ensures conn.errorVariables.Some? ==> r.conn.errorVariables.Some?
    ensures r.ret == 0 ==> forall k ::
      LookupVariable(r.conn.errorVariables, k)
        == Override(LastPresent(StandardSources(conn, build, date), k), LookupVariable(conn.errorVariables, k))
  {
    var s := AddPresent(conn.errorVariables, StandardSources(conn, build, date), alloc);
    Recorded(conn.(errorVariables := s.vars), s.alloc, s.ret)
  }

  lemma StandardNamesDistinct(conn: Conn, build: Build, date: string)
    ensures DistinctNames(StandardSources(conn, build, date))
  {
  }

  /** After a successful `add_standard_vars`: `version`, `package` and `date`
      are bound; each of `request`, `cause`, `clientip` and `clienthost` is
      bound to its source when that is not NULL and otherwise keeps whatever
      binding it had; every other name is untouched. */
  lemma StandardVariables(conn: Conn, build: Build, date: string, alloc: Allocator, name: string)
    requires AddStandardVars(conn, build, date, alloc).ret == 0
    ensures var vars := AddStandardVars(conn, build, date, alloc).conn.errorVariables;
      && LookupVariable(vars, "version") == Some(build.version)
      && LookupVariable(vars, "package") == Some(build.package)
      && LookupVariable(vars, "date") == Some(date)
      && LookupVariable(vars, "request") == Override(conn.requestLine, LookupVariable(conn.errorVariables, "request"))
      && LookupVariable(vars, "cause") == Override(conn.errorString, LookupVariable(conn.errorVariables, "cause"))
      && LookupVariable(vars, "clientip") == Override(conn.clientIpAddr, LookupVariable(conn.errorVariables, "clientip"))
      && LookupVariable(vars, "clienthost") == Override(conn.clientStringAddr, LookupVariable(conn.errorVariables, "clienthost"))
      && (name !in StandardNames ==> LookupVariable(vars, name) == LookupVariable(conn.errorVariables, name))
  {
    var src := StandardSources(conn, build, date);
    StandardNamesDistinct(conn, build, date);
    LastPresentDistinct(src, 0);
    LastPresentDistinct(src, 1);
    LastPresentDistinct(src, 2);
    LastPresentDistinct(src, 3);
    LastPresentDistinct(src, 4);
    LastPresentDistinct(src, 5);
    LastPresentDistinct(src, 6);
    if name !in StandardNames {
      LastPresentMissing(src, name);
    }
  }

  const StandardNames: set<string> := {"request", "cause", "clientip", "clienthost", "version", "package", "date"}

  /** `indicate_http_error`: adds the caller's (name, value) pairs in order,
      then records the status code and a copy of the message, then adds the
      standard variables. A failed insertion stops it with -1. */
  function IndicateHttpError(conn: Conn, number: int, message: string, pairs: seq<(string, string)>,
                             build: Build, date: string, alloc: Allocator): (r: Recorded)
    ensures r.ret == 0 || r.ret == -1
    ensures r.conn.requestLine == conn.requestLine
    ensures r.conn.clientIpAddr == conn.clientIpAddr && r.conn.clientStringAddr == conn.clientStringAddr
    ensures r.ret == 0 ==> r.conn.errorNumber == number
    ensures InsertAll(conn.errorVariables, pairs, alloc).ret != 0 ==> r.ret == -1 && SameExceptVars(conn, r.conn)
    ensures r.conn.errorNumber == number || (r.ret == -1 && r.conn == conn.(errorVariables := r.conn.errorVariables))
    ensures r.conn.errorString == conn.errorString || r.conn.errorString == Some(message) || r.conn.errorString.None?
    ensures r.ret == 0 ==> r.conn.errorString == Some(message) || r.conn.errorString.None?
    ensures r.ret == 0 ==> forall k ::
      LookupVariable(r.conn.errorVariables, k)
        == Override(LastPresent(StandardSources(r.conn, build, date), k),
                    Override(LastBound(pairs, k), LookupVariable(conn.errorVariables, k)))
  {
    var s := InsertAll(conn.errorVariables, pairs, alloc);
    if s.ret != 0 then
      Recorded(conn.(errorVariables := s.vars), s.alloc, -1)
    else
      var (copy, a1) := SafeStrdup(message, s.alloc);
      var recorded := conn.(errorVariables := s.vars, errorNumber := number, errorString := copy);
      AddStandardVars(recorded, build, date, a1)
  }

  /** After a successful `indicate_http_error`, `cause` holds the message
      whenever its copy succeeded, and a caller's name outside the standard
      ones holds the value the caller gave it last. */
  lemma RecordedVariables(conn: Conn, number: int, message: string, pairs: seq<(string, string)>,
                          build: Build, date: string, alloc: Allocator, name: string)
    requires IndicateHttpError(conn, number, message, pairs, build, date, alloc).ret == 0
    ensures var r := IndicateHttpError(conn, number, message, pairs, build, date, alloc);
      && (r.conn.errorString.Some? ==> LookupVariable(r.conn.errorVariables, "cause") == Some(message))
      && LookupVariable(r.conn.errorVariables, "date") == Some(date)
      && (name !in StandardNames && LastBound(pairs, name).Some? ==>
            LookupVariable(r.conn.errorVariables, name) == LastBound(pairs, name))
  {
    var r := IndicateHttpError(conn, number, message, pairs, build, date, alloc);
    var src := StandardSources(r.conn, build, date);
    StandardNamesDistinct(r.conn, build, date);
    LastPresentDistinct(src, 1);
    LastPresentDistinct(src, 6);
    if name !in StandardNames {
      LastPresentMissing(src, name);
    }
  }

  /** The status line and header block `send_http_headers` writes. */
  function HttpHeaders(code: int, message: string, build: Build): string {
    "HTTP/1.0 " + FormatInt(code) + " " + message + "\r\n"
      + "Server: " + build.package + "/" + build.version + "\r\n"
      + "Content-Type: text/html\r\n"
      + "Connection: close\r\n"
      + "\r\n"
  }

  /** The inline page written when the template cannot be opened. */
  function FallbackPage(message: string, build: Build, err: OpenError): string {
    "<html><head><title>" + message + "</title></head>"
      + "<body><blockquote><i>" + build.package + " " + build.version + "</i><br>"
      + "The page you requested was unavailable. The error code is listed "
      + "below. In addition, the HTML file which has been configured as the "
      + "page to be displayed when an error of this type was unavailable, "
      + "with the error code " + FormatInt(err.errno) + " (" + err.description + ").  Please contact your administrator."
      + "<center>" + message + "</center>"
      + "</body></html>"
      + "\r\n"
  }

  /** No write from the sink's next attempt on fails. */
  predicate Reliable(s: Sink) {
    forall i :: s.attempts <= i < |s.outcomes| ==> s.outcomes[i] == 0
  }

  /** The body the client should receive: the rendered template when the
      resolved path opens, the fallback page otherwise. */
  function Body(conn: Conn, cfg: Config, files: map<string, seq<string>>, fallback: string): string
    requires ValidCode(conn.errorNumber)
  {
    var path := GetHtmlFile(cfg, conn.errorNumber);
    if path in files then Flatten(TemplateWrites(files[path], conn.errorVariables))
    else fallback
  }

  /** `send_http_error_message`: writes the headers (ignoring whether that
      write failed), resolves the template for the recorded code, and renders
      it, or writes the fallback page when it cannot be opened. `files` holds
      the chunks of every file that opens; `err` is what a failed open
      reports. */
  function SendHttpErrorMessage(conn: Conn, cfg: Config, files: map<string, seq<string>>, err: OpenError,
                                build: Build, sink: Sink): (r: (int, Sink))
    requires ValidCode(conn.errorNumber) && conn.errorString.Some?
    ensures r.1.outcomes == sink.outcomes && r.1.attempts > sink.attempts
  {
    var h := Write(sink, HttpHeaders(conn.errorNumber, conn.errorString.value, build));
    SendBody(conn, cfg, files, FallbackPage(conn.errorString.value, build, err), h.1)
  }

  /** What follows the header write: the rendered template, or the fallback
      page when the resolved path does not open. */
  function SendBody(conn: Conn, cfg: Config, files: map<string, seq<string>>, fallback: string,
                    sink: Sink): (r: (int, Sink))
    requires ValidCode(conn.errorNumber)
    ensures r.1.outcomes == sink.outcomes && r.1.attempts >= sink.attempts
  {
    var path := GetHtmlFile(cfg, conn.errorNumber);
    if path in files then
      DeliverSpec(sink, TemplateWrites(files[path], conn.errorVariables));
      Render(files[path], conn.errorVariables, sink)
    else
      Write(sink, fallback)
  }

  /** Whatever the body writes, the client keeps what it had already
      received. */
  lemma BodyExtends(conn: Conn, cfg: Config, files: map<string, seq<string>>, fallback: string, sink: Sink)
    requires ValidCode(conn.errorNumber)
    ensures sink.delivered <= SendBody(conn, cfg, files, fallback, sink).1.delivered
  {
    var path := GetHtmlFile(cfg, conn.errorNumber);
    if path in files {
      DeliverExtends(sink, TemplateWrites(files[path], conn.errorVariables));
    } else {
      WriteExtends(sink, fallback);
    }
  }

  /** On a sink that fails no more writes, the body is delivered in full
      and the result is 0. */
  lemma ReliableBody(conn: Conn, cfg: Config, files: map<string, seq<string>>, fallback: string, sink: Sink)
    requires ValidCode(conn.errorNumber)
    requires Reliable(sink)
    ensures var r := SendBody(conn, cfg, files, fallback, sink);
      r.0 == 0 && r.1.delivered == sink.delivered + Body(conn, cfg, files, fallback)
  {
    var path := GetHtmlFile(cfg, conn.errorNumber);
    if path in files {
      var writes := TemplateWrites(files[path], conn.errorVariables);
      assert forall i :: sink.attempts <= i < sink.attempts + |writes| ==> OutcomeAt(sink.outcomes, i) == 0;
      DeliverSucceeds(sink, writes);
    } else {
      ReliableNext(sink);
      WriteSucceeds(sink, fallback);
    }
  }

  lemma ReliableNext(s: Sink)
    requires Reliable(s)
    ensures OutcomeAt(s.outcomes, s.attempts) == 0
  {
  }

  /** The headers come first: when their write succeeds, the client has
      received them before anything else of the response. */
  lemma HeadersFirst(conn: Conn, cfg: Config, files: map<string, seq<string>>, err: OpenError,
                     build: Build, sink: Sink)
    requires ValidCode(conn.errorNumber) && conn.errorString.Some?
    requires OutcomeAt(sink.outcomes, sink.attempts) == 0
    ensures sink.delivered + HttpHeaders(conn.errorNumber, conn.errorString.value, build)
            <= SendHttpErrorMessage(conn, cfg, files, err, build, sink).1.delivered
  {
    var headers := HttpHeaders(conn.errorNumber, conn.errorString.value, build);
    WriteSucceeds(sink, headers);
    BodyExtends(conn, cfg, files, FallbackPage(conn.errorString.value, build, err), Write(sink, headers).1);
  }

  /** When no write fails, the client receives the headers followed by the
      body, and the result is 0. */
  lemma ReliableResponse(conn: Conn, cfg: Config, files: map<string, seq<string>>, err: OpenError,
                         build: Build, sink: Sink)
    requires ValidCode(conn.errorNumber) && conn.errorString.Some?
    requires Reliable(sink)
    ensures var r := SendHttpErrorMessage(conn, cfg, files, err, build, sink);
      r.0 == 0 && r.1.delivered == sink.delivered + HttpHeaders(conn.errorNumber, conn.errorString.value, build)
                                   + Body(conn, cfg, files, FallbackPage(conn.errorString.value, build, err))
  {
    ReliableAfterHeaders(conn, cfg, files, FallbackPage(conn.errorString.value, build, err),
                         HttpHeaders(conn.errorNumber, conn.errorString.value, build), sink);
  }

  /** On a sink that fails no write, a successful header write followed by
      the body delivers both, whatever the headers and the fallback page say. */
  lemma ReliableAfterHeaders(conn: Conn, cfg: Config, files: map<string, seq<string>>, fallback: string,
                             headers: string, sink: Sink)
    requires ValidCode(conn.errorNumber)
    requires Reliable(sink)
    ensures var r := SendBody(conn, cfg, files, fallback, Write(sink, headers).1);
      r.0 == 0 && r.1.delivered == sink.delivered + headers + Body(conn, cfg, files, fallback)
  {
    ReliableNext(sink);
    WriteSucceeds(sink, headers);
    ReliableBody(conn, cfg, files, fallback, Write(sink, headers).1);
  }

  /** A failed header write does not stop the response: when every later
      write succeeds, the result is 0 and the client receives the body alone. */
  lemma HeaderFailureIgnored(conn: Conn, cfg: Config, files: map<string, seq<string>>, err: OpenError,
                             build: Build, sink: Sink)
    requires ValidCode(conn.errorNumber) && conn.errorString.Some?
    requires OutcomeAt(sink.outcomes, sink.attempts) != 0
    requires Reliable(sink.(attempts := sink.attempts + 1))
    ensures var r := SendHttpErrorMessage(conn, cfg, files, err, build, sink);
            r.0 == 0 && r.1.delivered == sink.delivered + Body(conn, cfg, files, FallbackPage(conn.errorString.value, build, err))
  {
    BodyAfterFailedHeaders(conn, cfg, files, FallbackPage(conn.errorString.value, build, err),
                           HttpHeaders(conn.errorNumber, conn.errorString.value, build), sink);
  }

  /** A failed header write delivers nothing; the body that follows it on a
      sink that fails no more writes is delivered in full. */
  lemma BodyAfterFailedHeaders(conn: Conn, cfg: Config, files: map<string, seq<string>>, fallback: string,
                               headers: string, sink: Sink)
    requires ValidCode(conn.errorNumber)
    requires OutcomeAt(sink.outcomes, sink.attempts) != 0
    requires Reliable(sink.(attempts := sink.attempts + 1))
    ensures var r := SendBody(conn, cfg, files, fallback, Write(sink, headers).1);
      r.0 == 0 && r.1.delivered == sink.delivered + Body(conn, cfg, files, fallback)
  {
    ReliableBody(conn, cfg, files, fallback, Write(sink, headers).1);
  }
}

=== FILE: scenarios.dfy ===
/** Whole responses for concrete situations: an error recorded with a
    registered template, and an error whose template cannot be opened. */
module Scenarios {
  import opened Wrappers
  import opened Hashmap
  import opened Numerals
  import opened ErrorPages
  import opened Variables
  import opened Sink
  import opened Renderer
  import opened Responder

  /** The template line `Error {cause} at {date}`. */
  const CauseAtDate: string := "Error {cause} at {date}"

  /** A chunk of the form `text1{name1}text2{name2}` renders as the two
      texts with the two values in place. */
  lemma LineWithTwoVariables(text1: string, name1: string, text2: string, name2: string, vars: Vars)
    requires NoBraces(text1) && NoBraces(name1) && NoBraces(text2) && NoBraces(name2)
    requires NoNul(text1 + "{" + name1 + "}" + (text2 + "{" + name2 + "}"))
    ensures Flatten(LineWrites(text1 + "{" + name1 + "}" + (text2 + "{" + name2 + "}"), vars))
            == text1 + ValueOf(vars, name1) + text2 + ValueOf(vars, name2)
  {
    var first := text1 + "{" + name1 + "}";
    var second := text2 + "{" + name2 + "}";
    var w1 := Chars(text1) + [ValueOf(vars, name1)];
    var w2 := Chars(text2) + [ValueOf(vars, name2)];
    assert LineWrites(first + second, vars) == w1 + w2 by {
      VisibleWhole(first + second);
      TextThenVariable(text1, name1, vars);
      TextThenVariable(text2, name2, vars);
      ScanAppend(Literal, first, second, vars);
    }
    assert Flatten(w1) == text1 + ValueOf(vars, name1) by {
      FlattenAppend(Chars(text1), [ValueOf(vars, name1)]);
      FlattenChars(text1);
      FlattenOne(ValueOf(vars, name1));
    }
    assert Flatten(w2) == text2 + ValueOf(vars, name2) by {
      FlattenAppend(Chars(text2), [ValueOf(vars, name2)]);
      FlattenChars(text2);
      FlattenOne(ValueOf(vars, name2));
    }
    FlattenAppend(w1, w2);
    Regroup(text1, ValueOf(vars, name1), text2, ValueOf(vars, name2));
  }

  /** The line renders as the text around the two variables with their values
      in place. */
  lemma CauseAtDateRenders(vars: Vars)
    ensures Flatten(LineWrites(CauseAtDate, vars))
            == "Error " + ValueOf(vars, "cause") + " at " + ValueOf(vars, "date")
  {
    assert NoBraces("Error ") && NoBraces("cause") && NoBraces(" at ") && NoBraces("date");
    assert CauseAtDate == "Error " + "{" + "cause" + "}" + (" at " + "{" + "date" + "}");
    assert NoNul(CauseAtDate);
    LineWithTwoVariables("Error ", "cause", " at ", "date", vars);
  }

  /** The response to 404 "Not Found" opens with the status line
      `HTTP/1.0 404 Not Found`. */
  lemma NotFoundStatusLine(build: Build)
    ensures "HTTP/1.0 404 Not Found\r\n" <= HttpHeaders(404, "Not Found", build)
  {
    assert Decimal(4) == "4";
    assert Decimal(40) == Decimal(4) + "0";
    assert Decimal(404) == Decimal(40) + "4";
    assert FormatInt(404) == "404";
  }

  /** A template of one chunk renders as that chunk. */
  lemma SingleChunk(line: string, vars: Vars)
    ensures TemplateWrites([line], vars) == LineWrites(line, vars)
  {
    assert [line][..0] == [];
  }

  /** Recording error 404 "Not Found" and answering it with a registered
      template `Error {cause} at {date}`, on a connection that fails no write:
      the client receives the headers for `404 Not Found`, then the text
      `Error Not Found at ` followed by the date. */
  lemma NotFoundResponse(conn: Conn, cfg: Config, path: string, files: map<string, seq<string>>,
                         err: OpenError, build: Build, date: string, alloc: Allocator, sink: Sink)
    requires var r := IndicateHttpError(conn, 404, "Not Found", [], build, date, alloc);
             r.ret == 0 && r.conn.errorString.Some?
    requires GetHtmlFile(cfg, 404) == path && path in files && files[path] == [CauseAtDate]
    requires Reliable(sink)
    ensures var r := IndicateHttpError(conn, 404, "Not Found", [], build, date, alloc);
            var response := SendHttpErrorMessage(r.conn, cfg, files, err, build, sink);
            && response.0 == 0
            && response.1.delivered
               == sink.delivered + HttpHeaders(404, "Not Found", build) + ("Error " + "Not Found" + " at " + date)
  {
    var r := IndicateHttpError(conn, 404, "Not Found", [], build, date, alloc);
    var vars := r.conn.errorVariables;
    assert r.conn.errorNumber == 404 && r.conn.errorString == Some("Not Found");
    RecordedVariables(conn, 404, "Not Found", [], build, date, alloc, "date");
    assert ValueOf(vars, "cause") == "Not Found" && ValueOf(vars, "date") == date;
    ReliableResponse(r.conn, cfg, files, err, build, sink);
    SingleChunk(CauseAtDate, vars);
    CauseAtDateRenders(vars);
  }

  /** When the resolved template does not open and no write fails, the
      client receives the headers and then the fallback page, and the result
      is 0. */
  lemma MissingTemplateResponse(conn: Conn, cfg: Config, files: map<string, seq<string>>,
                                err: OpenError, build: Build, sink: Sink)
    requires ValidCode(conn.errorNumber) && conn.errorString.Some?
    requires GetHtmlFile(cfg, conn.errorNumber) !in files
    requires Reliable(sink)
    ensures var response := SendHttpErrorMessage(conn, cfg, files, err, build, sink);
            && response.0 == 0
            && response.1.delivered
               == sink.delivered + HttpHeaders(conn.errorNumber, conn.errorString.value, build)
                  + FallbackPage(conn.errorString.value, build, err)
  {
    ReliableResponse(conn, cfg, files, err, build, sink);
  }

  lemma Regroup<T>(a: seq<T>, b: seq<T>, c: seq<T>, d: seq<T>)
    ensures (a + b) + (c + d) == a + b + c + d
  {
  }
}

=== FILE: sink.dfy ===
/** The client connection as a byte sink: each `write_message` call is one
    write, and the sink decides, call by call, whether it fails. */
module Sink {

  /** `outcomes[i]` is the value write number i returns (0 = success); writes
      past the end of `outcomes` succeed. `attempts` counts the writes made so
      far and `delivered` is the text the client has received. A failed write
      delivers nothing. */
  datatype Sink = Sink(outcomes: seq<int>, attempts: nat, delivered: string)

  function OutcomeAt(outcomes: seq<int>, i: nat): int {
    if i < |outcomes| then outcomes[i] else 0
  }

  /** One `write_message` call. */
  function Write(s: Sink, data: string): (r: (int, Sink))
    ensures r.1.outcomes == s.outcomes && r.1.attempts == s.attempts + 1
    ensures r.0 == 0 ==> r.1.delivered == s.delivered + data
    ensures r.0 != 0 ==> r.1.delivered == s.delivered
  {
    var code := OutcomeAt(s.outcomes, s.attempts);
    if code == 0 then (0, Sink(s.outcomes, s.attempts + 1, s.delivered + data))
    else (code, Sink(s.outcomes, s.attempts + 1, s.delivered))
  }

  /** The concatenation of a sequence of writes. */
  function Flatten(writes: seq<string>): string
    decreases |writes|
  {
    if writes == [] then [] else writes[0] + Flatten(writes[1..])
  }

  /** How many writes from attempt `start` on succeed before the first failure,
      looking at no more than `n` of them (`n` when none of them fails). */
  function FirstFailure(outcomes: seq<int>, start: nat, n: nat): (k: nat)
    ensures k <= n
    ensures forall i :: start <= i < start + k ==> OutcomeAt(outcomes, i) == 0
    ensures k < n ==> OutcomeAt(outcomes, start + k) != 0
    decreases n
  {
    if n == 0 || OutcomeAt(outcomes, start) != 0 then 0
    else 1 + FirstFailure(outcomes, start + 1, n - 1)
  }

  /** Performs `writes` in order, stopping at the first failed write. */
  function Deliver(s: Sink, writes: seq<string>): (int, Sink)
    decreases |writes|
  {
    if writes == [] then (0, s)
    else
      var r := Write(s, writes[0]);
      if r.0 != 0 then r else Deliver(r.1, writes[1..])
  }

  /** Delivery stops at the first failing write and returns its value, or
      returns 0 after making every write when none fails. */
  lemma {:induction false} DeliverSpec(s: Sink, writes: seq<string>)
    ensures var k := FirstFailure(s.outcomes, s.attempts, |writes|);
      var r := Deliver(s, writes);
      && r.0 == (if k < |writes| then OutcomeAt(s.outcomes, s.attempts + k) else 0)
      && r.1.outcomes == s.outcomes
      && r.1.attempts == s.attempts + (if k < |writes| then k + 1 else k)
    decreases |writes|
  {
    if writes != [] {
      var w := Write(s, writes[0]);
      if w.0 == 0 {
        DeliverSpec(w.1, writes[1..]);
        assert Deliver(s, writes) == Deliver(w.1, writes[1..]);
      }
    }
  }

  /** The client receives exactly the text of the writes made before the
      first failing one. */
  lemma {:induction false} DeliverText(s: Sink, writes: seq<string>)
    ensures Deliver(s, writes).1.delivered
            == s.delivered + Flatten(writes[..FirstFailure(s.outcomes, s.attempts, |writes|)])
    decreases |writes|
  {
    if writes == [] {
      assert writes[..0] == [];
    } else {
      var w := Write(s, writes[0]);
      if w.0 != 0 {
        assert writes[..0] == [];
      } else {
        DeliverText(w.1, writes[1..]);
        var k := FirstFailure(s.outcomes, w.1.attempts, |writes| - 1);
        assert FirstFailure(s.outcomes, s.attempts, |writes|) == k + 1;
        TakeCons(writes, k);
        FlattenAppend([writes[0]], writes[1..][..k]);
        assert Flatten([writes[0]]) == writes[0] by {
          assert [writes[0]][1..] == [];
        }
      }
    }
  }

  /** A write the sink lets through delivers its data. */
  lemma WriteSucceeds(s: Sink, data: string)
    requires OutcomeAt(s.outcomes, s.attempts) == 0
    ensures Write(s, data) == (0, Sink(s.outcomes, s.attempts + 1, s.delivered + data))
  {
  }

  /** A write only ever appends to what the client has received. */
  lemma WriteExtends(s: Sink, data: string)
    ensures s.delivered <= Write(s, data).1.delivered
  {
  }

  /** Delivery only ever appends to what the client has received. */
  lemma DeliverExtends(s: Sink, writes: seq<string>)
    ensures s.delivered <= Deliver(s, writes).1.delivered
  {
    DeliverText(s, writes);
  }

  lemma TakeCons<T>(xs: seq<T>, k: nat)
    requires k < |xs|
    ensures xs[..k + 1] == [xs[0]] + xs[1..][..k]
  {
  }

  /** Delivery succeeds exactly when none of the writes fails; it then
      delivers all of them. */
  lemma {:induction false} DeliverSucceeds(s: Sink, writes: seq<string>)
    ensures Deliver(s, writes).0 == 0
      <==> forall i :: s.attempts <= i < s.attempts + |writes| ==> OutcomeAt(s.outcomes, i) == 0
    ensures Deliver(s, writes).0 == 0 ==> Deliver(s, writes).1.delivered == s.delivered + Flatten(writes)
    decreases |writes|
  {
    if writes != [] {
      var w := Write(s, writes[0]);
      if w.0 == 0 {
        DeliverSucceeds(w.1, writes[1..]);
        assert Deliver(s, writes) == Deliver(w.1, writes[1..]);
        assert Flatten(writes) == writes[0] + Flatten(writes[1..]);
      } else {
        assert OutcomeAt(s.outcomes, s.attempts) != 0;
      }
    }
  }

  /** Delivering two batches of writes is delivering the first, then, unless
      it failed, the second. */
  lemma {:induction false} DeliverAppend(s: Sink, a: seq<string>, b: seq<string>)
    ensures Deliver(s, a + b) == (var r := Deliver(s, a); if r.0 != 0 then r else Deliver(r.1, b))
    decreases |a|
  {
    if a != [] {
      assert (a + b)[1..] == a[1..] + b;
      assert (a + b)[0] == a[0];
      var (code, s1) := Write(s, a[0]);
      if code == 0 {
        DeliverAppend(s1, a[1..], b);
      }
    } else {
      assert a + b == b;
    }
  }

  /** Once a prefix of the writes has failed, nothing after it matters. */
  lemma DeliverPrefixFailure(s: Sink, a: seq<string>, b: seq<string>)
    requires a <= b
    requires Deliver(s, a).0 != 0
    ensures Deliver(s, b) == Deliver(s, a)
  {
    assert b == a + b[|a|..];
    DeliverAppend(s, a, b[|a|..]);
  }

  lemma {:induction false} FlattenAppend(a: seq<string>, b: seq<string>)
    ensures Flatten(a + b) == Flatten(a) + Flatten(b)
    decreases |a|
  {
    if a != [] {
      assert (a + b)[1..] == a[1..] + b;
      FlattenAppend(a[1..], b);
      calc {
        Flatten(a + b);
        (a + b)[0] + Flatten((a + b)[1..]);
        a[0] + (Flatten(a[1..]) + Flatten(b));
        (a[0] + Flatten(a[1..])) + Flatten(b);
      }
    } else {
      assert a + b == b;
    }
  }
}

=== FILE: variables.dfy ===
/** The per-connection variable store used for template substitution
    (src/htmlerror.c:80-99, 204-222). */
module Variables {
  import opened Wrappers
  import opened Hashmap

  /** A connection's `error_variables`: `None` until the first insertion
      creates it. */
  type Vars = Option<Entries>

  /** The store after an insertion, the allocator, and the C return value. */
  datatype Stored = Stored(vars: Vars, alloc: Allocator, ret: int)

  /** `lookup_variable`: the value bound to `name`, or an explicit miss
      (`None`) when the name is unbound or the store was never created. */
  function LookupVariable(vars: Vars, name: string): (r: Option<string>)
    ensures vars.None? ==> r.None?
    ensures r.Some? <==> vars.Some? && name in vars.value
    ensures r.Some? ==> r.value == vars.value[name]
  {
    Find(vars, name)
  }

  /** `add_error_variable`: creates the store when it is absent, then binds
      `key` to `val`. */
  function AddErrorVariable(vars: Vars, key: string, val: string, alloc: Allocator): (r: Stored)
    ensures r.ret == 0 || r.ret == -1
    ensures vars.Some? ==> r.vars.Some? && vars.value.Keys <= r.vars.value.Keys
    ensures r.ret == 0 ==> LookupVariable(r.vars, key) == Some(val)
    ensures r.ret == 0 ==> forall k :: k != key ==> LookupVariable(r.vars, k) == LookupVariable(vars, k)
    ensures r.ret == -1 ==> forall k :: LookupVariable(r.vars, k) == LookupVariable(vars, k)
  {
    var (h, a1) := if vars.Some? then (vars, alloc) else Create(alloc);
    if h.None? then
      Stored(None, a1, -1)
    else
      var (ok, m, a2) := Insert(h.value, key, val, a1);
      Stored(Some(m), a2, if ok then 0 else -1)
  }

  /** Inserts `pairs` in order with `add_error_variable`, stopping at the first
      failure: the loop of `indicate_http_error`. */
  function InsertAll(vars: Vars, pairs: seq<(string, string)>, alloc: Allocator): (r: Stored)
    ensures r.ret == 0 || r.ret == -1
    ensures vars.Some? ==> r.vars.Some? && vars.value.Keys <= r.vars.value.Keys
    ensures r.ret == 0 ==>
      forall k :: LookupVariable(r.vars, k) == Override(LastBound(pairs, k), LookupVariable(vars, k))
    decreases |pairs|
  {
    if pairs == [] then Stored(vars, alloc, 0)
    else
      var r1 := AddErrorVariable(vars, pairs[0].0, pairs[0].1, alloc);
      if r1.ret != 0 then r1 else InsertAll(r1.vars, pairs[1..], r1.alloc)
  }

  /** The value the last present source for `name` gives it, if any. */
  function LastPresent(sources: seq<(string, Option<string>)>, name: string): Option<string>
    decreases |sources|
  {
    if sources == [] then None
    else Override(LastPresent(sources[1..], name), if sources[0].0 == name then sources[0].1 else None)
  }

  /** A chain of `ADD_VAR_RET`: inserts each source that is present (non-NULL),
      skips each absent one, and stops at the first failed insertion. */
  function AddPresent(vars: Vars, sources: seq<(string, Option<string>)>, alloc: Allocator): (r: Stored)
    ensures r.ret == 0 || r.ret == -1
    ensures vars.Some? ==> r.vars.Some? && vars.value.Keys <= r.vars.value.Keys
    ensures r.ret == 0 ==>
      forall k :: LookupVariable(r.vars, k) == Override(LastPresent(sources, k), LookupVariable(vars, k))
    decreases |sources|
  {
    if sources == [] then Stored(vars, alloc, 0)
    else
      var r1 := if sources[0].1.None? then Stored(vars, alloc, 0)
                else AddErrorVariable(vars, sources[0].0, sources[0].1.value, alloc);
      if r1.ret != 0 then r1 else AddPresent(r1.vars, sources[1..], r1.alloc)
  }

  predicate DistinctNames(sources: seq<(string, Option<string>)>) {
    forall i, j :: 0 <= i < j < |sources| ==> sources[i].0 != sources[j].0
  }

  /** With distinct names, each name ends up with its own source, and a name
      with an absent source keeps its earlier binding. */
  lemma {:induction false} LastPresentDistinct(sources: seq<(string, Option<string>)>, i: nat)
    requires DistinctNames(sources) && i < |sources|
    ensures LastPresent(sources, sources[i].0) == sources[i].1
    decreases |sources|
  {
    if i == 0 {
      LastPresentMissing(sources[1..], sources[0].0);
    } else {
      LastPresentDistinct(sources[1..], i - 1);
    }
  }

  /** A name no source carries gets no value from them. */
  lemma {:induction false} LastPresentMissing(sources: seq<(string, Option<string>)>, name: string)
    requires forall i :: 0 <= i < |sources| ==> sources[i].0 != name
    ensures LastPresent(sources, name).None?
    decreases |sources|
  {
    if sources != [] {
      LastPresentMissing(sources[1..], name);
    }
  }

  /** Setting one name twice: a later lookup sees the second value. */
  lemma LastWriteWins(vars: Vars, name: string, v1: string, v2: string, alloc: Allocator)
    requires InsertAll(vars, [(name, v1), (name, v2)], alloc).ret == 0
    ensures LookupVariable(InsertAll(vars, [(name, v1), (name, v2)], alloc).vars, name) == Some(v2)
  {
    assert LastBound([(name, v1), (name, v2)], name) == Some(v2);
  }
}

=== FILE: wrappers.dfy ===
/** Optional values: the model's replacement for the NULL pointers the C code
    uses to signal "absent" (a missing map, a failed copy, an unbound name). */
module Wrappers {

  datatype Option<+T> = None | Some(value: T) {

    /** The value, or `default` when there is none. */
    function GetOr(default: T): T {
      match this
      case Some(v) => v
      case None => default
    }
  }

  /** `a` when it holds a value, otherwise `b`: the later of two bindings wins. */
  function Override<T>(a: Option<T>, b: Option<T>): Option<T> {
    if a.Some? then a else b
  }

  /** The value the last pair for `key` in `pairs` gives it, if any pair does:
      a sequence of insertions read as "the last write wins". */
  function LastBound<K(==), V>(pairs: seq<(K, V)>, key: K): Option<V>
    decreases |pairs|
  {
    if pairs == [] then None
    else Override(LastBound(pairs[1..], key), if pairs[0].0 == key then Some(pairs[0].1) else None)
  }
}
